=== FILE: README.md ===
# Clipping plane: orientation state machine and axis-extent cache

A Dafny model of the cutting plane of the IMORE 3D model viewer
(`clipping_plane.js`). This is the part of the viewer that slices the scene
with one interactive plane. The model covers:

- the parameter record `{o, d, az, flip, vector_z}` and its property setters and getters;
- the per-axis extent cache `getAxisValues`;
- the activation setters of the four controls (Altitude, Distance, Azimuth, Flip), reduced to "which controls are shown" plus the parameters they seed;
- the orientation change handler `guiOrientationOnChange`;
- the plane object: `render`, `renderHorizontalHelper`, `renderVerticalHelper`, `remove`, `alignCutPlane`;
- the change handlers for altitude, azimuth and distance.

All state is one immutable `ClippingPlane.State`, and every operation is a
pure function over it. A user's orientation choice is modelled as the
property setter followed by the change handler, in that order. dat.gui calls
them in that order. A session is a sequence of user actions (`OrientationMachine.Run`).
Its invariant `OrientationMachine.Inv` holds from the start state onwards. It says:

- all three axes are cached, and the cache is sound for the session's scene;
- `vectorZ` is the flip's sign;
- a Vertical plane is never flipped;
- the shown controls belong to the stored orientation;
- a helper exists exactly when the orientation is not Disabled;
- while a helper exists, the renderer clips with exactly the one cut plane, and that plane is aligned with the helper.

Modules, one per component of the source:

| file | module | models |
|---|---|---|
| `host.dfy` | `Host` | the scene: per-axis bounds in map coordinates, `zScale`, base rotation |
| `geometry.dfy` | `Geometry` | vectors, Euler rotations, the helper pose, the cut plane |
| `axis_cache.dfy` | `AxisCache` | `getAxisValues`, `boot`'s pre-fill |
| `parameters.dfy` | `Parameters` | the configuration record and `guiProps` |
| `controls.dfy` | `Controls` | the shown-control set |
| `clipping_plane.dfy` | `ClippingPlane` | the plane object and the change handlers |
| `orientation_machine.dfy` | `OrientationMachine` | the activation setters, the orientation change, sessions |

Abstractions:

- The bounding-box query and the world-to-map conversion are one opaque input: `Host.Scene` gives the converted bounds for each axis.
- Rotations are Euler angles kept in degrees. The source keeps radians, converting with `Math.PI / 180`.
- A normal is the symbolic term `Rotated(rotation, vector)`. The quaternion rotation is never evaluated.
- Cosine and sine in the distance handler come from a caller-supplied function `trig` that maps an angle in degrees to its (cosine, sine) pair.
- The renderer's list holds a reference to the single cut plane (`CutPlaneRef`). Realigning the plane therefore changes what the renderer clips with without touching the list, as in the source.

Behaviour of the code that the model keeps, although a reader may not expect it:

- When Horizontal is chosen, `render` writes the scaled helper height into `d`. The Altitude activation then overwrites it with the unscaled mid altitude (lines 58 and 317). Choosing Horizontal also does not reset `flip` or `vector_z`.
- `remove` empties the renderer's clipping-plane list even when there is no helper (line 353).
- The azimuth seed reads the stored orientation, not the value passed to the handler (line 86). The handler compares the raw value, but `render` reads the stored orientation. So a rejected orientation code still tears every control down and re-renders the helper for the old orientation (`SelectInvalidOutcome`). On its own, `Transition` would leave a stale cut plane if the raw value were 2 and the stored orientation Horizontal. That combination cannot occur after the setter has run, so its contract promises an aligned plane only when the two agree (`SelectOrientation` promises it always).
- `renderVerticalHelper` asks for the x extent only to log it (line 336), and the Distance activation asks for y (line 71); both come after the helper has been added to the scene. Sessions start after `boot` (lines 153-158), which has already measured all three axes, so these requests are cache hits.
- `getAxisValues` consults the cache before validating the axis name (lines 224-230). The cache is a plain JavaScript object, so a name inherited from `Object.prototype` ("toString", "constructor", ...) passes the cache test and returns the inherited property. The model does not reproduce this; see `AxisCache.GetAxisValues` under "## Left out". For every other name the order cannot be observed, because invalid names never enter the cache.

## Model

| member | source | states |
|---|---|---|
| AxisCache.Lookup | clipping_plane.js:223-254 | a cached axis is returned as stored with the cache unchanged; an uncached axis is queried, gets `mid = (max+min)/2` and `interval = max-min`, and is stored; soundness of the cache for the scene is preserved |
| AxisCache.GetAxisValues | clipping_plane.js:223-254 | a result exists exactly for "x", "y", "z"; any other name yields nothing and leaves the cache unchanged; a valid name's extent is stored under its axis |
| AxisCache.Boot | clipping_plane.js:153-158 | after boot all three axes are cached, earlier entries are kept, and soundness is preserved |
| AxisCache.LookupTwice | clipping_plane.js:223-253 | a second request returns the identical extent and cache, and does not depend on the scene (no second query) |
| AxisCache.GetAxisValuesTwice | clipping_plane.js:223-253 | a repeated request with the same name returns the first request's result and cache without a second scene query: a cache hit for "x", "y", "z", and the same validation failure for any other name |
| AxisCache.MeasuredExtentIsConsistent | clipping_plane.js:247-248 | in exact arithmetic, an extent from a sound cache satisfies `min + interval == max` and `mid - min == interval/2` |
| Parameters.OrientationOf | clipping_plane.js:3-8 | exactly the codes 0, 1, 2 name an orientation, and each names the orientation with that code |
| Parameters.CodeRoundTrip | clipping_plane.js:3-8 | decoding an orientation's code gives the orientation back |
| Parameters.SetOrientation | clipping_plane.js:111-117 | a code in 0..2 is stored; any other code leaves the whole record unchanged; no other field ever changes |
| Parameters.SetOrientationIdempotent | clipping_plane.js:111-117 | setting the same orientation twice equals setting it once |
| Parameters.SetOrientationThenGet | clipping_plane.js:108-117 | reading back gives the written code if and only if the code was accepted or was already stored |
| Parameters.SetAltitude | clipping_plane.js:119-124 | writing Altitude makes both Altitude and Distance read the new value, and nothing else changes |
| Parameters.SetDistance | clipping_plane.js:126-131 | writing Distance makes both Distance and Altitude read the new value, and nothing else changes |
| Parameters.SetAzimuth | clipping_plane.js:133-138 | writing Azimuth is read back and changes nothing else |
| Parameters.SetFlip | clipping_plane.js:140-146 | the flag is stored and `vector_z` becomes +1 when flipped and -1 otherwise; nothing else changes |
| Controls.Show | clipping_plane.js:97-100 | the control is shown afterwards and every other control keeps its state |
| Controls.Hide | clipping_plane.js:64-66 | the control is not shown afterwards, others keep their state, and hiding a control that is not shown is a no-op |
| ClippingPlane.RenderHorizontalHelper | clipping_plane.js:304-318 | with a sound cache, the helper lies at world height `mid(z)·zScale`, turned by the base rotation; `d` holds the helper's height; no other parameter, control, renderer state or cut plane changes |
| ClippingPlane.RenderVerticalHelper | clipping_plane.js:320-339 | with a sound cache, the helper stands at world height `min(z)·zScale` with the vertical rotation; `vector_z` becomes -1 and `d` holds the helper's x position 0; no other parameter, control, renderer state or cut plane changes |
| ClippingPlane.Align | clipping_plane.js:341-345 | the cut plane passes through the helper's position with normal `(0,0,vector_z)` under the helper's rotation; nothing else changes |
| ClippingPlane.Render | clipping_plane.js:266-285 | a helper exists afterwards iff one existed or the orientation is not Disabled; then clipping is on, the list is exactly [cut plane] and the plane is aligned; without a helper nothing changes; the Horizontal and Vertical poses and `d` are as their helpers place them |
| ClippingPlane.Remove | clipping_plane.js:347-355 | the helper is gone and the clipping-plane list is empty, whether or not a helper existed; parameters, controls, cache and the clipping switch are untouched |
| ClippingPlane.AltitudeChanged | clipping_plane.js:191-196 | only the helper's height changes, to the value times `zScale`, and the cut plane is realigned to it |
| ClippingPlane.AzimuthChanged | clipping_plane.js:198-203 | only the helper's Y rotation changes, to minus the azimuth, and the cut plane is realigned |
| ClippingPlane.DistanceChanged | clipping_plane.js:205-215 | the helper moves to `(off·cos, off·sin, z)` with `off = value - interval(y)` and the angle `-(az-90)`; rotation and parameters are kept; the plane is realigned |
| ClippingPlane.FlipChanged | clipping_plane.js:143-150 | the Flip setter stores the flag, sets `vector_z` to its sign and realigns the cut plane through the helper's position with the new normal |
| OrientationMachine.Redraw | clipping_plane.js:170-176 | after tearing down the four controls, removing and re-rendering: no control is shown, a helper exists iff the stored orientation is not Disabled and then has an installed, aligned cut plane, otherwise the list is empty; `vector_z` is -1 for Vertical and kept otherwise |
| OrientationMachine.Transition | clipping_plane.js:168-189 | the shown controls are exactly {Altitude, Flip} for code 1, {Distance, Azimuth} for code 2 and none otherwise; a helper exists iff the stored orientation is not Disabled; the clipping list is [cut plane] with a helper and empty without |
| OrientationMachine.SelectOrientation | clipping_plane.js:168-189 | after the setter and the handler the stored orientation is the setter's, and any helper has an installed, aligned cut plane |
| OrientationMachine.Step | clipping_plane.js:107-151 | every user action on a shown control preserves the session invariant and never loses a cache entry |
| OrientationMachine.Run | clipping_plane.js:168-215 | any sequence of user actions preserves the session invariant |
| OrientationMachine.StartSatisfiesInv | clipping_plane.js:153-160 | the state after boot (configured record, all three axes measured, no helper, no controls) satisfies the invariant |
| OrientationMachine.StartAnswersFromCache | clipping_plane.js:153-158 | after boot every axis is cached with its measured extent, and a later request is answered from the cache whatever the scene then is |
| OrientationMachine.Deactivate | clipping_plane.js:64-66 | the control is no longer shown, the others keep their state, nothing else changes, and hiding a control that is not shown is a no-op (also lines 79-81, 92-94, 101-103) |
| OrientationMachine.ActivateAltitude | clipping_plane.js:55-63 | the Altitude control is shown and only `d` changes among the parameters: it becomes the cached z mid point, which for a sound cache is `(max+min)/2` of the z bounds |
| OrientationMachine.ActivateDistance | clipping_plane.js:69-78 | the Distance control is shown and only `d` changes among the parameters: it becomes the cached y interval, which for a sound cache is `max-min` of the y bounds |
| OrientationMachine.ActivateAzimuth | clipping_plane.js:84-91 | the Azimuth control is shown and `az` becomes 90 when the stored orientation is Vertical and 0 otherwise; nothing else changes |
| OrientationMachine.ActivateFlip | clipping_plane.js:97-100 | the Flip control is shown and nothing else changes, in particular not the flip value |
| OrientationMachine.ActiveAfter | clipping_plane.js:178-188 | Altitude and Flip are activated exactly for code 1, Distance and Azimuth exactly for code 2 |
| OrientationMachine.SelectVerticalOutcome | clipping_plane.js:183-188 | with the booted cache (all axes measured): choosing Vertical gives flip false, `vector_z` -1, azimuth 90, `d` = y interval, a standing helper at `min(z)·zScale`, and the Distance and Azimuth controls |
| OrientationMachine.SelectHorizontalOutcome | clipping_plane.js:178-181 | with the booted cache (all axes measured): choosing Horizontal puts the helper at `mid(z)·zScale`, leaves `d` = `mid(z)` (unscaled), keeps flip and `vector_z`, and shows Altitude and Flip |
| OrientationMachine.SelectDisabledOutcome | clipping_plane.js:168-176 | choosing Disabled leaves no helper, an empty clipping list and no controls |
| OrientationMachine.SelectInvalidOutcome | clipping_plane.js:168-189 | a rejected code keeps the stored orientation but still removes every control, and re-renders a helper iff the old orientation is not Disabled |
| OrientationMachine.SelectOrientationIdempotent | clipping_plane.js:168-189 | choosing the same orientation twice gives the state the first choice gave |
| OrientationMachine.RenderAfterRemoveForgetsHistory | clipping_plane.js:175-176 | removing then rendering yields a helper that depends only on the stored orientation and the scene |
| OrientationMachine.VerticalSeedsMatchHelper | clipping_plane.js:205-211 | with the booted cache (all axes measured): after choosing Vertical, feeding the seeded distance and azimuth to their handlers leaves the helper unchanged, for any trigonometry |
| OrientationMachine.HorizontalSeedMatchesHelper | clipping_plane.js:191-192 | with the booted cache (all axes measured): after choosing Horizontal, feeding the seeded altitude to its handler leaves the helper unchanged |
| OrientationMachine.DistanceEditExample | clipping_plane.js:205-211 | with the booted cache (all axes measured): with y from -20 to 20, the seeded distance is 40, and a distance of 60 at azimuth 90 moves the helper to x = 20, y = 0 |
| OrientationMachine.RunExtendsCache | clipping_plane.js:223-253 | no sequence of user actions drops or changes a cached extent |
| OrientationMachine.InvKeepsPlaneOnHelper | clipping_plane.js:341-345 | in any state satisfying the invariant, a Vertical plane is unflipped, and any helper carries the single installed cut plane through its position with the unit normal `(0,0,±1)` under its rotation |
| OrientationMachine.SessionKeepsPlaneOnHelper | clipping_plane.js:266-285 | from the state after boot, whatever the user does: a Vertical plane is never flipped; with a helper, clipping is on with exactly the cut plane, which passes through the helper with the unit normal `(0,0,±1)` under its rotation; without one, the list is empty |

## Left out

- dat.gui work: folder and controller creation, min/max bounds of the controls, the `Base` setter (lines 42-53) and the DOM removal in `guiRemoveController`. Controls are modelled only as the set of shown controls.
- three.js objects: meshes, materials, plane geometry sized to the base extent, `Box3`, `updateMatrixWorld`. Also `scene.add` / `scene.remove`, `app.render` and console logging. These are foreign calls or I/O.
- The helper mesh in the bounding-box query: `Box3().setFromObject(scene)` (line 232) measures every mesh, including a helper added at line 315 or 334. `Host.Query` gives the bare scene's bounds, which is exact only while no query happens with a helper in the scene. That holds in every session, because boot measures x, y and z (lines 156-158) before the Orientation control exists (line 160). `OrientationMachine.Inv` therefore requires all three axes cached, and the outcome lemmas whose queries follow `scene.add` require it too.
- Floating point: numbers are modelled as exact reals. Rounding and overflow in `(max+min)/2`, `max-min`, `value·zScale` and `value-interval` are not modelled, so relations such as `min + interval == max` hold in the model but may be off by rounding in the source.
- `parseInt` on the orientation value: inputs are modelled as integers that are already parsed. Strings such as "1.5", which `parseInt` accepts but `==` does not match, are not modelled.
- Trigonometry and quaternions: the degree-to-radian conversion, the cos/sin projection of the distance offset and the rotation of the normal. They appear as the `trig` parameter and the symbolic `Rotated` term.
- `guiFlipOnChange` (lines 217-221): never registered, because the Flip controller has no change handler (lines 99-100).
- `getHelper`'s lazy re-render (lines 287-293): the handlers require an existing helper instead. `OrientationMachine.Step` only delivers an edit for a shown control, and the invariant guarantees a helper then. An edit of a control that is not shown cannot be made and is ignored.
- The unused configuration fields `x`, `y`, `z`, `constant` (lines 12-15).
- The renderer's initial clipping state (off, no planes) is the three.js default, taken as given in `ClippingPlane.Start`.
- AxisCache.GetAxisValues: returns no result for every name other than "x", "y", "z". In the source, a name inherited from `Object.prototype` ("toString", "constructor", "valueOf", "__proto__", ...) passes the cache test at line 224 and returns the inherited property at line 253. An extent cannot represent such a value. Every call site passes the literals 'x', 'y' or 'z'.

=== FILE: axis_cache.dfy ===
/**
 * The per-axis extent cache (`getAxisValues`): the first request for an axis
 * queries the scene and stores `{min, max, mid, interval}`; every later
 * request returns the stored entry without querying again.
 */
module AxisCache {
  import opened Wrappers
  import opened Host

  datatype Extent = Extent(min: real, max: real, mid: real, interval: real)

  type Cache = map<Axis, Extent>

  /** The axis named by an identifier, if it is one of "x", "y", "z". */
  function ParseAxis(name: string): Option<Axis>
  {
    if name == "x" then Some(X)
    else if name == "y" then Some(Y)
    else if name == "z" then Some(Z)
    else None
  }

  /** The extent derived from fresh bounds. */
  function Measure(b: Bounds): Extent
  {
    Extent(b.min, b.max, (b.max + b.min) / 2.0, b.max - b.min)
  }

  /** Every cached entry is what a fresh query of `scene` would give. */
  ghost predicate Sound(cache: Cache, scene: Scene)
  {
    forall a :: a in cache ==> cache[a] == Measure(Query(scene, a))
  }

  /**
   * Extent of a recognised axis: a hit returns the stored entry and leaves
   * the cache alone, a miss queries the scene and stores the result.
   */
  function Lookup(cache: Cache, scene: Scene, a: Axis): (r: (Extent, Cache))
    ensures a in cache ==> r == (cache[a], cache)
    ensures a !in cache ==>
              && r.0.min == Query(scene, a).min
              && r.0.max == Query(scene, a).max
              && r.0.mid == (r.0.max + r.0.min) / 2.0
              && r.0.interval == r.0.max - r.0.min
              && r.1 == cache[a := r.0]
    ensures a in r.1 && r.1[a] == r.0
    ensures Sound(cache, scene) ==> Sound(r.1, scene) && r.0 == Measure(Query(scene, a))
  {
    if a in cache then (cache[a], cache)
    else
      var e := Measure(Query(scene, a));
      (e, cache[a := e])
  }

  /**
   * `getAxisValues(name)`: nothing and an unchanged cache for an identifier
   * that is not an axis, otherwise the cached or freshly measured extent.
   */
  function GetAxisValues(cache: Cache, scene: Scene, name: string): (r: (Option<Extent>, Cache))
    ensures r.0.Some? <==> name == "x" || name == "y" || name == "z"
    ensures r.0.None? ==> r.1 == cache
    ensures r.0.Some? ==> r.1.Keys == cache.Keys + {ParseAxis(name).value}
                          && r.1[ParseAxis(name).value] == r.0.value
    ensures r.0.Some? && ParseAxis(name).value in cache ==> r == (Some(cache[ParseAxis(name).value]), cache)
  {
    match ParseAxis(name)
    case None => (None, cache)
    case Some(a) =>
      var l := Lookup(cache, scene, a);
      (Some(l.0), l.1)
  }

  /** `boot`: measure all three axes up front. */
  function Boot(cache: Cache, scene: Scene): (r: Cache)
    ensures r.Keys == {X, Y, Z}
    ensures forall a :: a in cache ==> a in r && r[a] == cache[a]
    ensures Sound(cache, scene) ==> Sound(r, scene)
  {
    Lookup(Lookup(Lookup(cache, scene, X).1, scene, Y).1, scene, Z).1
  }

  /**
   * A second request for the same axis returns the identical extent, leaves
   * the cache as the first request left it, and does not look at the scene:
   * any scene gives the same answer.
   */
  lemma LookupTwice(cache: Cache, scene: Scene, other: Scene, a: Axis)
    ensures var first := Lookup(cache, scene, a);
            Lookup(first.1, other, a) == first
  {
  }

  /**
   * The same for identifiers: a repeated `getAxisValues` returns the first
   * result and cache without a second scene query. For "x", "y", "z" it is a
   * cache hit; any other name fails validation again in the same way.
   */
  lemma GetAxisValuesTwice(cache: Cache, scene: Scene, other: Scene, name: string)
    ensures var first := GetAxisValues(cache, scene, name);
            GetAxisValues(first.1, other, name) == first
  {
  }

  /** An extent handed out from a sound cache has a consistent mid point and interval. */
  lemma MeasuredExtentIsConsistent(cache: Cache, scene: Scene, a: Axis)
    requires Sound(cache, scene)
    ensures var e := Lookup(cache, scene, a).0;
            e.min + e.interval == e.max && e.mid - e.min == e.interval / 2.0
  {
  }
}

=== FILE: clipping_plane.dfy ===
/**
 * The state of the clipping-plane subsystem and the operations of its plane
 * object: rendering the helper for the current orientation, removing it,
 * realigning the cut plane, and the change handlers that move the helper.
 */
module ClippingPlane {
  import opened Wrappers
  import opened Geometry
  import opened Host
  import opened AxisCache
  import opened Parameters
  import opened Controls

  /** The renderer keeps a reference to the single cut plane, never a copy. */
  datatype PlaneRef = CutPlaneRef

  /** The renderer's clipping switch and its list of active clipping planes. */
  datatype Renderer = Renderer(localClipping: bool, clippingPlanes: seq<PlaneRef>)

  datatype State = State(
    params: Params,
    controls: set<Control>,
    cache: Cache,
    helper: Option<Pose>,
    cutPlane: CutPlane,
    renderer: Renderer)

  /**
   * The session after `boot`: the configured parameters, all three axes
   * measured, no controls beyond Orientation, no helper.
   */
  function Start(scene: Scene): State
  {
    State(Initial, {}, Boot(map[], scene), None, Unset, Renderer(false, []))
  }

  /** Rotation of a horizontal helper: the base extent's rotation about Z. */
  function HorizontalRotation(scene: Scene): Euler
  {
    Euler(0.0, 0.0, scene.baseRotation)
  }

  /** Rotation of a vertical helper: a quarter turn about X, then back a quarter turn about Y. */
  const VerticalRotation := Euler(90.0, -90.0, 0.0)

  /** `renderHorizontalHelper`: a helper at the mid altitude, whose height is written to `d`. */
  function RenderHorizontalHelper(s: State, scene: Scene): (r: State)
    ensures Sound(s.cache, scene) ==>
              var mid := Measure(scene.zBounds).mid;
              && r.helper == Some(Pose(Vec3(0.0, 0.0, WorldZ(scene, mid)), HorizontalRotation(scene)))
              && r.params.d == WorldZ(scene, mid)
              && Sound(r.cache, scene)
    ensures r.helper.Some? && r.params.d == r.helper.value.position.z
    ensures r.params == s.params.(d := r.params.d)
    ensures r.controls == s.controls && r.renderer == s.renderer && r.cutPlane == s.cutPlane
    ensures s.cache.Keys <= r.cache.Keys
  {
    var z := Lookup(s.cache, scene, Z);
    var pose := Pose(Vec3(0.0, 0.0, WorldZ(scene, z.0.mid)), HorizontalRotation(scene));
    s.(params := s.params.(d := pose.position.z), cache := z.1, helper := Some(pose))
  }

  /**
   * `renderVerticalHelper`: a standing helper at the lowest altitude with a
   * downward normal, whose x position is written to `d`. The x extent is
   * requested only to be logged, but that request still fills the cache.
   */
  function RenderVerticalHelper(s: State, scene: Scene): (r: State)
    ensures Sound(s.cache, scene) ==>
              && r.helper == Some(Pose(Vec3(0.0, 0.0, WorldZ(scene, scene.zBounds.min)), VerticalRotation))
              && r.params.d == 0.0
              && Sound(r.cache, scene)
    ensures r.helper.Some? && r.params.d == r.helper.value.position.x
    ensures r.params == s.params.(d := r.params.d, vectorZ := -1)
    ensures r.controls == s.controls && r.renderer == s.renderer && r.cutPlane == s.cutPlane
    ensures s.cache.Keys <= r.cache.Keys
  {
    var z := Lookup(s.cache, scene, Z);
    var pose := Pose(Vec3(0.0, 0.0, WorldZ(scene, z.0.min)), VerticalRotation);
    var x := Lookup(z.1, scene, X);
    s.(params := s.params.(vectorZ := -1, d := pose.position.x), cache := x.1, helper := Some(pose))
  }

  /** `alignCutPlane`: recompute the cut plane from the helper's pose and the facing sign. */
  function Align(s: State): (r: State)
    requires s.helper.Some?
    ensures r.cutPlane.Through?
    ensures r.cutPlane.point == s.helper.value.position
    ensures r.cutPlane.normal == Rotated(s.helper.value.rotation, Vec3(0.0, 0.0, s.params.vectorZ as real))
    ensures r.(cutPlane := s.cutPlane) == s
  {
    s.(cutPlane := AlignCutPlane(s.helper.value, s.params.vectorZ))
  }

  /** The cut plane agrees with the helper and the renderer clips with exactly that plane. */
  ghost predicate Installed(s: State)
  {
    && s.helper.Some?
    && s.renderer.localClipping
    && s.renderer.clippingPlanes == [CutPlaneRef]
    && s.cutPlane == AlignCutPlane(s.helper.value, s.params.vectorZ)
  }

  /**
   * `render`: build a helper for a Horizontal or Vertical orientation; if a
   * helper exists afterwards, switch clipping on, install the cut plane as
   * the only clipping plane and align it.
   */
  function Render(s: State, scene: Scene): (r: State)
    ensures r.helper.Some? <==> s.helper.Some? || s.params.o != Disabled
    ensures r.helper.Some? ==> Installed(r)
    ensures r.helper.None? ==> r == s
    ensures r.controls == s.controls
    ensures r.params.o == s.params.o && r.params.az == s.params.az && r.params.flip == s.params.flip
    ensures s.cache.Keys <= r.cache.Keys
    ensures r.params.vectorZ == if s.params.o == Vertical then -1 else s.params.vectorZ
    ensures Sound(s.cache, scene) ==> Sound(r.cache, scene)
    ensures Sound(s.cache, scene) && s.params.o == Horizontal ==>
              var mid := Measure(scene.zBounds).mid;
              && r.helper == Some(Pose(Vec3(0.0, 0.0, WorldZ(scene, mid)), HorizontalRotation(scene)))
              && r.params.d == WorldZ(scene, mid)
              && r.params.vectorZ == s.params.vectorZ
    ensures Sound(s.cache, scene) && s.params.o == Vertical ==>
              && r.helper == Some(Pose(Vec3(0.0, 0.0, WorldZ(scene, scene.zBounds.min)), VerticalRotation))
              && r.params.d == 0.0
              && r.params.vectorZ == -1
  {
    var drawn :=
      match s.params.o
      case Disabled => s
      case Horizontal => RenderHorizontalHelper(s, scene)
      case Vertical => RenderVerticalHelper(s, scene);
    if drawn.helper.Some? then
      Align(drawn.(renderer := Renderer(true, [CutPlaneRef])))
    else
      drawn
  }

  /**
   * `remove`: drop the helper and empty the renderer's clipping-plane list,
   * whether or not a helper existed; nothing else changes.
   */
  function Remove(s: State): (r: State)
    ensures r.helper.None?
    ensures r.renderer.clippingPlanes == []
    ensures r.renderer.localClipping == s.renderer.localClipping
    ensures r.params == s.params && r.controls == s.controls && r.cache == s.cache
    ensures r.cutPlane == s.cutPlane
  {
    s.(helper := None, renderer := s.renderer.(clippingPlanes := []))
  }

  /** `guiAltitudeOnChange`: lift the helper to the new altitude, scaled to world units, and realign. */
  function AltitudeChanged(s: State, scene: Scene, value: real): (r: State)
    requires s.helper.Some?
    ensures r.helper == Some(s.helper.value.(position := s.helper.value.position.(z := WorldZ(scene, value))))
    ensures r.cutPlane == AlignCutPlane(r.helper.value, r.params.vectorZ)
    ensures r.(helper := s.helper, cutPlane := s.cutPlane) == s
  {
    var h := s.helper.value;
    Align(s.(helper := Some(h.(position := h.position.(z := WorldZ(scene, value))))))
  }

  /**
   * `guiAzimuthOnChange`: turn the helper about its Y axis by the negated
   * azimuth and realign.
   */
  function AzimuthChanged(s: State, value: real): (r: State)
    requires s.helper.Some?
    ensures r.helper == Some(s.helper.value.(rotation := s.helper.value.rotation.(y := -value)))
    ensures r.cutPlane == AlignCutPlane(r.helper.value, r.params.vectorZ)
    ensures r.(helper := s.helper, cutPlane := s.cutPlane) == s
  {
    var h := s.helper.value;
    Align(s.(helper := Some(h.(rotation := h.rotation.(y := -value)))))
  }

  /** Signed offset of a distance value from the y interval, which is the distance's resting value. */
  function Offset(value: real, interval: real): real
  {
    value - interval
  }

  /**
   * `guiDistanceOnChange`: move the helper horizontally by the offset of the
   * new distance, along the direction at `-(az - 90)` degrees, and realign.
   * `trig` maps an angle in degrees to its cosine and sine.
   */
  function DistanceChanged(s: State, scene: Scene, trig: real -> (real, real), value: real): (r: State)
    requires s.helper.Some?
    ensures var off := value - Lookup(s.cache, scene, Y).0.interval;
            var dir := trig(-(s.params.az - 90.0));
            && r.helper.Some?
            && r.helper.value.position == Vec3(off * dir.0, off * dir.1, s.helper.value.position.z)
            && r.helper.value.rotation == s.helper.value.rotation
    ensures r.cutPlane == AlignCutPlane(r.helper.value, r.params.vectorZ)
    ensures r.params == s.params && r.controls == s.controls && r.renderer == s.renderer
    ensures s.cache.Keys <= r.cache.Keys
    ensures Sound(s.cache, scene) ==> Sound(r.cache, scene)
  {
    var y := Lookup(s.cache, scene, Y);
    var off := Offset(value, y.0.interval);
    var dir := trig(-(s.params.az - 90.0));
    var h := s.helper.value;
    Align(s.(cache := y.1, helper := Some(h.(position := Vec3(off * dir.0, off * dir.1, h.position.z)))))
  }

  /**
   * The Flip setter: store the flag, derive the facing sign from it, and
   * realign the cut plane through the helper's position.
   */
  function FlipChanged(s: State, v: bool): (r: State)
    requires s.helper.Some?
    ensures r.params.flip == v
    ensures r.params.vectorZ == (if v then 1 else -1)
    ensures r.cutPlane.Through? && r.cutPlane.point == s.helper.value.position
    ensures r.cutPlane.normal == Rotated(s.helper.value.rotation, Vec3(0.0, 0.0, r.params.vectorZ as real))
    ensures r.helper == s.helper && r.renderer == s.renderer && r.controls == s.controls && r.cache == s.cache
    ensures r.params.(flip := s.params.flip, vectorZ := s.params.vectorZ) == s.params
  {
    Align(s.(params := SetFlip(s.params, v)))
  }
}

=== FILE: controls.dfy ===
/**
 * The four parameter controls of the GUI, reduced to which of them are
 * currently shown.
 */
module Controls {
  import opened Parameters

  datatype Control = AltitudeControl | DistanceControl | AzimuthControl | FlipControl

  /** Show a control. */
  function Show(shown: set<Control>, c: Control): (r: set<Control>)
    ensures c in r
    ensures forall d :: d != c ==> (d in r <==> d in shown)
  {
    shown + {c}
  }

  /** Tear a control down; a control that is not shown is left alone. */
  function Hide(shown: set<Control>, c: Control): (r: set<Control>)
    ensures c !in r
    ensures forall d :: d != c ==> (d in r <==> d in shown)
    ensures c !in shown ==> r == shown
  {
    shown - {c}
  }

  /** The controls an orientation shows. */
  function ForOrientation(o: Orientation): set<Control>
  {
    match o
    case Disabled => {}
    case Horizontal => {AltitudeControl, FlipControl}
    case Vertical => {DistanceControl, AzimuthControl}
  }
}

=== FILE: geometry.dfy ===
/**
 * The geometric vocabulary of the clipping plane: positions, rotations, the
 * helper's pose and the cut plane derived from it. Rotations are never
 * evaluated: a normal is kept as the symbolic term "this vector rotated by
 * this rotation", which is all the plane logic needs.
 */
module Geometry {

  /** A point in world space. */
  datatype Vec3 = Vec3(x: real, y: real, z: real)

  /** Euler angles of the helper, in degrees about the X, Y and Z axes. */
  datatype Euler = Euler(x: real, y: real, z: real)

  /** Position and rotation of the visual helper mesh. */
  datatype Pose = Pose(position: Vec3, rotation: Euler)

  /** `Rotated(r, v)` stands for the vector `v` rotated by the quaternion of `r`. */
  datatype Normal = Rotated(rotation: Euler, base: Vec3)

  /**
   * The clipping plane handed to the renderer. `Unset` is the plane as
   * constructed before the first alignment.
   */
  datatype CutPlane = Unset | Through(normal: Normal, point: Vec3)

  /** The unrotated normal: the Z axis, pointing up or down by `vectorZ`. */
  function Facing(vectorZ: int): Vec3
  {
    Vec3(0.0, 0.0, vectorZ as real)
  }

  /**
   * The plane through the helper's position whose normal is the facing
   * vector rotated by the helper's rotation.
   */
  function AlignCutPlane(helper: Pose, vectorZ: int): CutPlane
  {
    Through(Rotated(helper.rotation, Facing(vectorZ)), helper.position)
  }
}

=== FILE: host.dfy ===
/**
 * What the clipping plane reads from the host scene. The bounding-box query
 * and the world-to-map conversion are opaque: a scene is given by the
 * already converted bounds along each axis.
 */
module Host {

  datatype Axis = X | Y | Z

  /** Lower and upper bound of the scene along one axis, in map coordinates. */
  datatype Bounds = Bounds(min: real, max: real)

  /**
   * The host scene for one session: its bounds per axis, the vertical
   * exaggeration `zScale` and the rotation of its base extent in degrees.
   */
  datatype Scene = Scene(xBounds: Bounds, yBounds: Bounds, zBounds: Bounds,
                         zScale: real, baseRotation: real)

  /** World-space height of a map altitude, after vertical exaggeration. */
  function WorldZ(scene: Scene, altitude: real): real
  {
    altitude * scene.zScale
  }

  /** The bounding-box query for one axis. */
  function Query(scene: Scene, a: Axis): Bounds
  {
    match a
    case X => scene.xBounds
    case Y => scene.yBounds
    case Z => scene.zBounds
  }
}

=== FILE: orientation_machine.dfy ===
/**
 * The orientation state machine: activating a control seeds the parameter
 * it shows, and an orientation change tears every control and the helper
 * down, re-renders, and activates the controls of the new orientation.
 */
module OrientationMachine {
  import opened Wrappers
  import opened Geometry
  import opened Host
  import opened AxisCache
  import opened Parameters
  import opened Controls
  import opened ClippingPlane

  /** Tear one control down; a control that is not shown is left alone and nothing else changes. */
  function Deactivate(s: State, c: Control): (r: State)
    ensures c !in r.controls
    ensures forall d :: d != c ==> (d in r.controls <==> d in s.controls)
    ensures c !in s.controls ==> r == s
    ensures r == s.(controls := r.controls)
  {
    s.(controls := Hide(s.controls, c))
  }

  /** Show the Altitude control, seeding `d` with the mid altitude. */
  function ActivateAltitude(s: State, scene: Scene): (r: State)
    ensures r.controls == Show(s.controls, AltitudeControl)
    ensures r.params == s.params.(d := r.params.d)
    ensures r == s.(params := r.params, cache := r.cache, controls := r.controls)
    ensures Z in s.cache ==> r.params.d == s.cache[Z].mid && r.cache == s.cache
    ensures Sound(s.cache, scene) ==>
              r.params.d == (scene.zBounds.max + scene.zBounds.min) / 2.0 && Sound(r.cache, scene)
    ensures s.cache.Keys <= r.cache.Keys
  {
    var z := Lookup(s.cache, scene, Z);
    s.(params := s.params.(d := z.0.mid), cache := z.1, controls := Show(s.controls, AltitudeControl))
  }

  /** Show the Distance control, seeding `d` with the y interval. */
  function ActivateDistance(s: State, scene: Scene): (r: State)
    ensures r.controls == Show(s.controls, DistanceControl)
    ensures r.params == s.params.(d := r.params.d)
    ensures r == s.(params := r.params, cache := r.cache, controls := r.controls)
    ensures Y in s.cache ==> r.params.d == s.cache[Y].interval && r.cache == s.cache
    ensures Sound(s.cache, scene) ==>
              r.params.d == scene.yBounds.max - scene.yBounds.min && Sound(r.cache, scene)
    ensures s.cache.Keys <= r.cache.Keys
  {
    var y := Lookup(s.cache, scene, Y);
    s.(params := s.params.(d := y.0.interval), cache := y.1, controls := Show(s.controls, DistanceControl))
  }

  /** Show the Azimuth control, seeding `az` with 90 when the stored orientation is Vertical and 0 otherwise. */
  function ActivateAzimuth(s: State): (r: State)
    ensures r.controls == Show(s.controls, AzimuthControl)
    ensures s.params.o == Vertical ==> r.params.az == 90.0
    ensures s.params.o != Vertical ==> r.params.az == 0.0
    ensures r == s.(params := s.params.(az := r.params.az), controls := r.controls)
  {
    s.(params := s.params.(az := if s.params.o == Vertical then 90.0 else 0.0),
       controls := Show(s.controls, AzimuthControl))
  }

  /** Show the Flip control; its value is left as it is. */
  function ActivateFlip(s: State): (r: State)
    ensures r.controls == Show(s.controls, FlipControl)
    ensures r == s.(controls := r.controls)
  {
    s.(controls := Show(s.controls, FlipControl))
  }

  /** The controls a transition to code `v` leaves shown. */
  function ActiveAfter(v: int): (r: set<Control>)
    ensures AltitudeControl in r <==> v == 1
    ensures FlipControl in r <==> v == 1
    ensures DistanceControl in r <==> v == 2
    ensures AzimuthControl in r <==> v == 2
  {
    match OrientationOf(v)
    case Some(o) => ForOrientation(o)
    case None => {}
  }

  /**
   * The first half of an orientation change: every control torn down, the
   * helper removed, and the helper re-rendered for the stored orientation.
   */
  function Redraw(s: State, scene: Scene): (r: State)
    ensures r.controls == {}
    ensures r.helper.Some? <==> s.params.o != Disabled
    ensures r.helper.Some? ==> Installed(r)
    ensures r.helper.None? ==> r.renderer.clippingPlanes == []
    ensures r.params.o == s.params.o && r.params.flip == s.params.flip
    ensures r.params.vectorZ == if s.params.o == Vertical then -1 else s.params.vectorZ
    ensures s.cache.Keys <= r.cache.Keys
    ensures Sound(s.cache, scene) ==> Sound(r.cache, scene)
  {
    var hidden := Deactivate(Deactivate(Deactivate(Deactivate(s, AzimuthControl), AltitudeControl), FlipControl), DistanceControl);
    Render(Remove(hidden), scene)
  }

  /**
   * `guiOrientationOnChange(v)`: compares the raw value `v`, while the
   * re-render reads the stored orientation.
   */
  function Transition(s: State, scene: Scene, v: int): (r: State)
    ensures r.controls == ActiveAfter(v)
    ensures r.helper.Some? <==> s.params.o != Disabled
    ensures r.helper.Some? ==> r.renderer.localClipping && r.renderer.clippingPlanes == [CutPlaneRef]
    ensures r.helper.Some? && (v == Code(Vertical) <==> s.params.o == Vertical) ==> Installed(r)
    ensures r.helper.None? ==> r.renderer.clippingPlanes == []
    ensures r.params.o == s.params.o
    ensures s.cache.Keys <= r.cache.Keys
    ensures Sound(s.cache, scene) ==> Sound(r.cache, scene)
  {
    var drawn := Redraw(s, scene);
    if v == Code(Horizontal) then
      ActivateFlip(ActivateAltitude(drawn, scene))
    else if v == Code(Vertical) then
      var shown := ActivateAzimuth(ActivateDistance(drawn, scene));
      shown.(params := shown.params.(flip := false, vectorZ := -1))
    else
      drawn
  }

  /** A user choosing orientation `v`: the setter runs first, then the change handler. */
  function SelectOrientation(s: State, scene: Scene, v: int): (r: State)
    ensures r.params.o == SetOrientation(s.params, v).o
    ensures r.helper.Some? ==> Installed(r)
  {
    Transition(s.(params := SetOrientation(s.params, v)), scene, v)
  }

  /**
   * What holds of every state a session can reach, for the scene the
   * session runs on. Boot has measured every axis, so no query during the
   * session ever sees a helper mesh in the scene.
   */
  ghost predicate Inv(s: State, scene: Scene)
  {
    && s.cache.Keys == {X, Y, Z}
    && Sound(s.cache, scene)
    && s.params.vectorZ == FlipSign(s.params.flip)
    && (s.params.o == Vertical ==> !s.params.flip)
    && s.controls <= ForOrientation(s.params.o)
    && (s.helper.Some? <==> s.params.o != Disabled)
    && (s.helper.Some? ==> Installed(s))
    && (s.helper.None? ==> s.renderer.clippingPlanes == [])
  }

  /** A user action on a shown control. */
  datatype Event =
    | ChooseOrientation(code: int)
    | EditAltitude(altitude: real)
    | EditDistance(distance: real)
    | EditAzimuth(azimuth: real)
    | EditFlip(flip: bool)

  /**
   * One user action: the property setter followed by the control's change
   * handler. The Flip control has no change handler, only its setter. An
   * edit of a control that is not shown cannot be made and is ignored.
   */
  function Step(s: State, scene: Scene, trig: real -> (real, real), e: Event): (r: State)
    requires Inv(s, scene)
    ensures Inv(r, scene)
    ensures s.cache.Keys <= r.cache.Keys
  {
    match e
    case ChooseOrientation(v) =>
      SelectOrientation(s, scene, v)
    case EditAltitude(v) =>
      if AltitudeControl in s.controls then
        AltitudeChanged(s.(params := SetAltitude(s.params, v)), scene, v)
      else s
    case EditDistance(v) =>
      if DistanceControl in s.controls then
        DistanceChanged(s.(params := SetDistance(s.params, v)), scene, trig, v)
      else s
    case EditAzimuth(v) =>
      if AzimuthControl in s.controls then
        AzimuthChanged(s.(params := SetAzimuth(s.params, v)), v)
      else s
    case EditFlip(v) =>
      if FlipControl in s.controls then FlipChanged(s, v) else s
  }

  /** A session: the user actions applied in order. */
  function Run(s: State, scene: Scene, trig: real -> (real, real), events: seq<Event>): (r: State)
    requires Inv(s, scene)
    ensures Inv(r, scene)
    decreases |events|
  {
    if events == [] then s
    else Run(Step(s, scene, trig, events[0]), scene, trig, events[1..])
  }

  /** The state after boot satisfies the invariant for the booted scene. */
  lemma StartSatisfiesInv(scene: Scene)
    ensures Inv(Start(scene), scene)
  {
  }

  /**
   * After boot every extent a session asks for is a cache hit: the answer
   * is the booted entry and no later change of the scene is seen.
   */
  lemma StartAnswersFromCache(scene: Scene, later: Scene, a: Axis)
    ensures var c := Start(scene).cache;
            a in c && Lookup(c, later, a) == (Measure(Query(scene, a)), c)
  {
    assert Sound(map[], scene);
  }

  /**
   * After choosing Vertical: no flip and a downward normal, azimuth 90,
   * distance the y interval, a standing helper at the lowest altitude, and
   * the Distance and Azimuth controls shown.
   */
  lemma SelectVerticalOutcome(s: State, scene: Scene)
    requires Sound(s.cache, scene) && s.cache.Keys == {X, Y, Z}
    ensures var r := SelectOrientation(s, scene, 2);
            && r.params.o == Vertical
            && !r.params.flip && r.params.vectorZ == -1
            && r.params.az == 90.0
            && r.params.d == scene.yBounds.max - scene.yBounds.min
            && r.helper == Some(Pose(Vec3(0.0, 0.0, WorldZ(scene, scene.zBounds.min)), VerticalRotation))
            && r.controls == {DistanceControl, AzimuthControl}
            && Installed(r)
  {
  }

  /**
   * After choosing Horizontal: a helper at the mid altitude turned like the
   * base, `d` equal to the unscaled mid altitude, flip and facing sign kept,
   * and the Altitude and Flip controls shown.
   */
  lemma SelectHorizontalOutcome(s: State, scene: Scene)
    requires Sound(s.cache, scene) && s.cache.Keys == {X, Y, Z}
    ensures var r := SelectOrientation(s, scene, 1);
            var mid := Measure(scene.zBounds).mid;
            && mid == (scene.zBounds.max + scene.zBounds.min) / 2.0
            && r.params.o == Horizontal
            && r.helper == Some(Pose(Vec3(0.0, 0.0, WorldZ(scene, mid)), HorizontalRotation(scene)))
            && r.params.d == mid
            && r.params.flip == s.params.flip && r.params.vectorZ == s.params.vectorZ
            && r.controls == {AltitudeControl, FlipControl}
            && Installed(r)
  {
  }

  /** After choosing Disabled: no helper, no clipping planes, no controls. */
  lemma SelectDisabledOutcome(s: State, scene: Scene)
    ensures var r := SelectOrientation(s, scene, 0);
            && r.params.o == Disabled
            && r.helper.None?
            && r.renderer.clippingPlanes == []
            && r.controls == {}
  {
  }

  /**
   * A code that is not an orientation keeps the stored orientation, yet
   * still tears every control down and re-renders the helper for the old
   * orientation.
   */
  lemma SelectInvalidOutcome(s: State, scene: Scene, v: int)
    requires !(0 <= v <= 2)
    ensures var r := SelectOrientation(s, scene, v);
            && r.params.o == s.params.o
            && r.controls == {}
            && (r.helper.Some? <==> s.params.o != Disabled)
  {
  }

  /** Choosing the same orientation twice leaves the state the first choice produced. */
  lemma SelectOrientationIdempotent(s: State, scene: Scene, v: int)
    ensures var once := SelectOrientation(s, scene, v);
            SelectOrientation(once, scene, v) == once
  {
    var once := SelectOrientation(s, scene, v);
    var p := SetOrientation(once.params, v);
    assert p == once.params;
    if v == Code(Horizontal) {
      assert Z in once.cache;
    } else if v == Code(Vertical) {
      assert Z in once.cache && X in once.cache && Y in once.cache;
    }
  }

  /**
   * Removing and re-rendering leaves no residue: the helper it produces
   * depends only on the stored orientation and the scene, not on anything
   * earlier in the session.
   */
  lemma RenderAfterRemoveForgetsHistory(s1: State, s2: State, scene: Scene)
    requires Sound(s1.cache, scene) && Sound(s2.cache, scene)
    requires s1.params.o == s2.params.o
    ensures Render(Remove(s1), scene).helper == Render(Remove(s2), scene).helper
  {
  }

  /**
   * After choosing Vertical, replaying the seeded distance and azimuth
   * through their change handlers leaves the helper where rendering put
   * it, whatever the trigonometry.
   */
  lemma VerticalSeedsMatchHelper(s: State, scene: Scene, trig: real -> (real, real))
    requires Sound(s.cache, scene) && s.cache.Keys == {X, Y, Z}
    ensures var r := SelectOrientation(s, scene, 2);
            && DistanceChanged(r, scene, trig, Distance(r.params)).helper == r.helper
            && AzimuthChanged(r, Azimuth(r.params)).helper == r.helper
  {
    var r := SelectOrientation(s, scene, 2);
    SelectVerticalOutcome(s, scene);
    var y := Lookup(r.cache, scene, Y);
    assert y.0.interval == r.params.d;
    assert Offset(r.params.d, y.0.interval) == 0.0;
  }

  /**
   * After choosing Horizontal, replaying the seeded altitude through its
   * change handler leaves the helper where rendering put it.
   */
  lemma HorizontalSeedMatchesHelper(s: State, scene: Scene)
    requires Sound(s.cache, scene) && s.cache.Keys == {X, Y, Z}
    ensures var r := SelectOrientation(s, scene, 1);
            AltitudeChanged(r, scene, Altitude(r.params)).helper == r.helper
  {
    SelectHorizontalOutcome(s, scene);
  }

  /**
   * A worked distance edit: with the y extent from -20 to 20 and the
   * azimuth seeded to 90, a distance of 60 is an offset of 20 straight
   * along X.
   */
  lemma DistanceEditExample(s: State, scene: Scene, trig: real -> (real, real))
    requires Sound(s.cache, scene) && s.cache.Keys == {X, Y, Z}
    requires scene.yBounds == Bounds(-20.0, 20.0)
    requires trig(0.0) == (1.0, 0.0)
    ensures var r := SelectOrientation(s, scene, 2);
            && r.params.d == 40.0
            && DistanceChanged(r, scene, trig, 60.0).helper.value.position
               == Vec3(20.0, 0.0, r.helper.value.position.z)
  {
    var r := SelectOrientation(s, scene, 2);
    SelectVerticalOutcome(s, scene);
    assert -(r.params.az - 90.0) == 0.0;
  }

  /** Every cached extent survives unchanged into the later cache. */
  ghost predicate Extends(older: Cache, newer: Cache)
  {
    forall a :: a in older ==> a in newer && newer[a] == older[a]
  }

  /** A session never drops or changes a cached extent. */
  lemma {:induction false} RunExtendsCache(s: State, scene: Scene, trig: real -> (real, real), events: seq<Event>)
    requires Inv(s, scene)
    ensures Extends(s.cache, Run(s, scene, trig, events).cache)
    decreases |events|
  {
    if events != [] {
      var next := Step(s, scene, trig, events[0]);
      RunExtendsCache(next, scene, trig, events[1..]);
    }
  }

  /**
   * What the invariant says about the plane: a vertical plane is never
   * flipped, and whenever a helper exists the renderer clips with the single
   * cut plane, which passes through the helper and whose normal is the unit
   * Z vector, signed by the flip, under the helper's rotation.
   */
  ghost predicate PlaneOnHelper(r: State)
  {
    && (r.params.o == Vertical ==> !r.params.flip && r.params.vectorZ == -1)
    && (r.helper.Some? <==> r.params.o != Disabled)
    && (r.helper.Some? ==>
          && r.renderer.localClipping
          && r.renderer.clippingPlanes == [CutPlaneRef]
          && r.cutPlane.Through?
          && r.cutPlane.point == r.helper.value.position
          && r.cutPlane.normal == Rotated(r.helper.value.rotation, Vec3(0.0, 0.0, if r.params.flip then 1.0 else -1.0))
          && r.cutPlane.normal.base.z * r.cutPlane.normal.base.z == 1.0)
    && (r.helper.None? ==> r.renderer.clippingPlanes == [])
  }

  /** A state satisfying the invariant keeps its cut plane on its helper. */
  lemma InvKeepsPlaneOnHelper(r: State, scene: Scene)
    requires Inv(r, scene)
    ensures PlaneOnHelper(r)
  {
    if r.helper.Some? {
      if r.params.flip {
        assert r.cutPlane.normal.base == Vec3(0.0, 0.0, 1.0);
      } else {
        assert r.cutPlane.normal.base == Vec3(0.0, 0.0, -1.0);
      }
    }
  }

  /** From the state after boot, whatever the user does, the cut plane stays on the helper. */
  lemma SessionKeepsPlaneOnHelper(scene: Scene, trig: real -> (real, real), events: seq<Event>)
    ensures PlaneOnHelper(Run(Start(scene), scene, trig, events))
  {
    StartSatisfiesInv(scene);
    InvKeepsPlaneOnHelper(Run(Start(scene), scene, trig, events), scene);
  }
}

=== FILE: parameters.dfy ===
/**
 * The parameter record of the clipping plane and its plain setters and
 * getters. Altitude and Distance are two views of the one field `d`.
 */
module Parameters {
  import opened Wrappers

  datatype Orientation = Disabled | Horizontal | Vertical

  /** The numeric code an orientation has in the configuration. */
  function Code(o: Orientation): int
  {
    match o
    case Disabled => 0
    case Horizontal => 1
    case Vertical => 2
  }

  /** The orientation a numeric code stands for, if any. */
  function OrientationOf(v: int): (r: Option<Orientation>)
    ensures r.Some? <==> 0 <= v <= 2
    ensures r.Some? ==> Code(r.value) == v
  {
    if v == 0 then Some(Disabled)
    else if v == 1 then Some(Horizontal)
    else if v == 2 then Some(Vertical)
    else None
  }

  /** Codes and orientations are in one-to-one correspondence. */
  lemma CodeRoundTrip(o: Orientation)
    ensures OrientationOf(Code(o)) == Some(o)
  {
  }

  /**
   * `o` the orientation, `d` the altitude or distance, `az` the azimuth in
   * degrees, `flip` the mirroring switch and `vectorZ` the sign of the
   * unrotated normal.
   */
  datatype Params = Params(o: Orientation, d: real, az: real, flip: bool, vectorZ: int)

  /** The configured starting values. */
  const Initial := Params(Disabled, 0.0, 0.0, false, -1)

  /** The sign the normal takes for a flip setting. */
  function FlipSign(flip: bool): int
  {
    if flip then 1 else -1
  }

  function OrientationCode(p: Params): int
  {
    Code(p.o)
  }

  /**
   * The Orientation setter: a recognised code is stored, anything else is
   * rejected with a warning and changes nothing.
   */
  function SetOrientation(p: Params, v: int): (q: Params)
    ensures 0 <= v <= 2 ==> OrientationCode(q) == v
    ensures q.(o := p.o) == p
    ensures !(0 <= v <= 2) ==> q == p
  {
    match OrientationOf(v)
    case Some(o) => p.(o := o)
    case None => p
  }

  function Altitude(p: Params): real
  {
    p.d
  }

  function Distance(p: Params): real
  {
    p.d
  }

  /** Writing the altitude writes the distance too, and nothing else. */
  function SetAltitude(p: Params, v: real): (q: Params)
    ensures Altitude(q) == v && Distance(q) == v
    ensures q.(d := p.d) == p
  {
    p.(d := v)
  }

  /** Writing the distance writes the altitude too, and nothing else. */
  function SetDistance(p: Params, v: real): (q: Params)
    ensures Distance(q) == v && Altitude(q) == v
    ensures q.(d := p.d) == p
  {
    p.(d := v)
  }

  function Azimuth(p: Params): real
  {
    p.az
  }

  function SetAzimuth(p: Params, v: real): (q: Params)
    ensures Azimuth(q) == v
    ensures q.(az := p.az) == p
  {
    p.(az := v)
  }

  function Flip(p: Params): bool
  {
    p.flip
  }

  /** The stored part of the Flip setter: the flag and the sign it implies. */
  function SetFlip(p: Params, v: bool): (q: Params)
    ensures Flip(q) == v
    ensures q.vectorZ == (if v then 1 else -1)
    ensures q.(flip := p.flip, vectorZ := p.vectorZ) == p
  {
    p.(flip := v, vectorZ := FlipSign(v))
  }

  /** Setting an orientation twice is the same as setting it once. */
  lemma SetOrientationIdempotent(p: Params, v: int)
    ensures SetOrientation(SetOrientation(p, v), v) == SetOrientation(p, v)
  {
  }

  /** The setter and getter of Orientation agree exactly on the accepted codes. */
  lemma SetOrientationThenGet(p: Params, v: int)
    ensures OrientationCode(SetOrientation(p, v)) == v <==> (0 <= v <= 2 || OrientationCode(p) == v)
  {
  }
}

=== FILE: wrappers.dfy ===
/** An optional value, for lookups that can miss. */
module Wrappers {

  datatype Option<+T> = None | Some(value: T)
}
